=== FILE: README.md ===
# jwtui editing core in Dafny

jwtui is a terminal editor with four text fields: a JWT string, a header, a
payload and a signing key. Each field keeps its own caret. A focus tag picks
the field that receives edits, and the input mode decides how a key is read.
In `Normal` mode keys are commands. In `Editing` mode keys edit text. This
project models that state machine (`App` in `src/main.rs`) as immutable
datatypes and pure functions and proves its contracts.

Files and modules:

- `text.dfy` (`Text`): one field as a `Slot` (text and caret). Holds insert,
  backspace and the two caret moves, with the invariant `cursor <= |text|`.
- `editor.dfy` (`Editor`): the `App` state with `Focus` and `InputMode`, the
  start state, the four edits applied to the focused field, and the focus
  cycle.
- `dispatch.dfy` (`Dispatch`): the key-dispatch table (`Decode`) and the
  step it drives. Also the event loop, both as a fold (`Run`) and as a loop
  (`EventLoop`) that stops reading at the quit key.
- `rust_string.dfy` (`RustString`): Rust `String` addressed by byte offsets.
  Each char occupies its UTF-8 width. `insert` and `remove` fail (panic) off
  a char boundary.
- `byte_caret.dfy` (`ByteCaret`): the editor with byte carets, exactly as the
  code computes them. It is proved to agree with the char-indexed model
  whenever the text and the typed characters are ASCII.

In the main model a caret counts characters. The code itself intends this:
it moves the caret by one per typed character and draws it at screen column
`cursor` (src/main.rs:221), which is a character count. But the edits hand the
caret to `String::insert` and `String::remove` as a byte offset. The two
readings coincide on ASCII, which `ByteCaret.RunAgreesOnAscii` proves for every
event stream. Outside ASCII the code can panic; see "## Findings".

Where the code departs from what one might expect of an editor, the model
follows the code:

- Insert, then left, then backspace does not restore the field.
  In the code that sequence deletes the character before the original caret
  (`Text.InsertLeftBackspace`, `Text.InsertLeftBackspaceChangesText`). The
  real round trip is insert followed directly by backspace
  (`Text.InsertThenBackspace`).
- Typing "abc", pressing left twice, then backspace does not give "ac",
  which deleting the character under the caret would. The code gives "bc" with the caret at 0
  (`Dispatch.ScenarioAbc`).
- In `Normal` mode the code does not filter on the key kind, so releasing
  'q' also quits.

## Model

| member | source | states |
|---|---|---|
| Text.Insert | src/main.rs:83-90 | At caret k the text before k is kept and c lands at index k. The old text from k on follows c. The caret becomes k+1 and stays within the text. |
| Text.Backspace | src/main.rs:102-111 | With the caret at 0 nothing changes. Otherwise the character at k-1 is removed and the caret becomes k-1. The text before k-1 and the text from k on are kept. The caret stays valid. |
| Text.MoveLeft | src/main.rs:113-116 | The text is unchanged. The caret drops by one, saturating at 0. |
| Text.MoveRight | src/main.rs:118-122 | The text is unchanged. The caret rises by one but never passes the current text length. Even a caret past the end lands back inside the text. |
| Text.InsertThenBackspace | src/main.rs:83-111 | Typing a character and then pressing backspace restores the field exactly, text and caret. |
| Text.BackspaceThenInsert | src/main.rs:83-111 | Re-typing the character a backspace removed restores the field. This is the converse round trip. |
| Text.BackspaceAtStartIsIdle | src/main.rs:102-111 | With the caret at 0, any number of backspaces leaves the field unchanged. |
| Text.Backspaces | src/main.rs:102-111 | Repeated backspaces keep the caret valid and never lengthen the text. |
| Text.MoveLeftThenRight | src/main.rs:113-122 | When the caret is not at 0, left then right is the identity. |
| Text.MoveRightThenLeft | src/main.rs:113-122 | When the caret is before the end, right then left is the identity. |
| Text.InsertLeftBackspace | src/main.rs:83-116 | Insert, then left, then backspace replaces the character before the original caret with c. At caret 0 it only prepends c. |
| Text.InsertLeftBackspaceChangesText | src/main.rs:83-116 | On the field "a" with the caret at 1, that sequence yields "b", not the original field. |
| Editor.NextField | src/main.rs:124-131 | The successor sits one place further in the cycle Jwt, Header, Payload, SigningKey, modulo 4. It always differs from its argument. |
| Editor.Get | src/main.rs:65-81 | Each focus value selects its own buffer and caret: Jwt the token, Header the header, Payload the payload, SigningKey the signing key. In a valid state that caret lies within its text. |
| Editor.Active | src/main.rs:65-81 | The focused buffer and caret satisfy the caret invariant in a valid state. Writing them back to the focused field leaves the state unchanged. |
| Editor.Put | src/main.rs:65-81 | Writing through the focused buffer and caret changes that field only. Focus and mode are kept. |
| Editor.New | src/main.rs:48-63 | All four fields start empty with the caret at 0. Focus starts on Jwt and the mode is Editing. The state is valid. |
| Editor.InsertChar | src/main.rs:83-90 | The focused field undergoes `Text.Insert`. The other three fields, the focus and the mode are unchanged. Validity is kept. |
| Editor.Backspace | src/main.rs:102-111 | The focused field undergoes `Text.Backspace`. Nothing else changes and validity is kept. |
| Editor.MoveLeft | src/main.rs:113-116 | The focused field undergoes `Text.MoveLeft`, so its text is unchanged. Nothing else changes. |
| Editor.MoveRight | src/main.rs:118-122 | The focused field undergoes `Text.MoveRight`: its text is unchanged and its caret ends within it. Nothing else changes. |
| Editor.NextFocus | src/main.rs:124-131 | The focus advances to `NextField`. The mode and every buffer and caret are unchanged. |
| Editor.TabCycle | src/main.rs:124-131 | Four focus steps are the identity. The first three visit three fields distinct from the start and from each other. |
| Editor.TabsKeepSlots | src/main.rs:124-131 | Any number of focus steps keeps every buffer and caret and the mode, and moves the focus n places. So each field's caret persists while it is unfocused. |
| Dispatch.Decode | src/main.rs:138-154 | Normal mode: 'q' quits and 'e' enters Editing, whatever the key kind. Every other key is ignored. Editing mode: a non-press is ignored. A press of Esc, Tab, a char, Backspace, Left or Right gives the matching command. Other keys are ignored. |
| Dispatch.Apply | src/main.rs:138-154 | Only Quit stops the loop. Validity is kept. Only FocusNext moves the focus. Unfocused fields never change. |
| Dispatch.Step | src/main.rs:137-154 | A step quits exactly on 'q' in Normal mode. The mode changes exactly on 'e' in Normal mode or a press of Esc in Editing mode. The focus changes exactly on a press of Tab in Editing mode. Normal mode changes no buffer. Unfocused fields never change. Non-press events in Editing mode change nothing. Validity is kept. |
| Dispatch.EditingKeys | src/main.rs:144-152 | In Editing mode each pressed key code runs its editor operation. |
| Dispatch.Run | src/main.rs:133-157 | The loop folded over an event stream ends in a valid state unless it quit. |
| Dispatch.RunAppend | src/main.rs:133-157 | Running a stream after another equals running their concatenation. A quit in the first part ends the whole run. |
| Dispatch.ReachableValid | src/main.rs:48-157 | Every state reached from the start state keeps every caret within its text. |
| Dispatch.NormalIgnoresOtherKeys | src/main.rs:139-143 | In Normal mode, a stream without 'q' or 'e' leaves the state exactly unchanged. |
| Dispatch.QuitStops | src/main.rs:140 | In Normal mode, 'q' of any kind ends the loop whatever follows. |
| Dispatch.FourTabs | src/main.rs:146 | In Editing mode, four Tab presses from Jwt visit Header, Payload and SigningKey, then return to the starting state. |
| Dispatch.ScenarioAbc | src/main.rs:83-122 | From the start state, typing "abc", left, left, backspace leaves the token field as "bc" with the caret at 0. |
| Dispatch.EventLoop | src/main.rs:133-157 | The loop reads events until one quits. If none quits it reads them all and ends where `Run` ends. If one quits, that event was the last one read, the state before it is `Run` of the events read before it, and `Run` of the whole stream stops. |
| RustString.CharIndex | src/main.rs:87 | Finds the char that starts at a byte offset when the offset is a char boundary. Returns none exactly when no prefix of the text has that byte length. |
| RustString.Insert | src/main.rs:87 | `String::insert` succeeds exactly at a char boundary. It puts c between the chars before and after that boundary. The byte length grows by c's UTF-8 width, so it ends past the offset. |
| RustString.Remove | src/main.rs:107 | `String::remove` succeeds exactly at a char boundary before the end. It removes the char starting there. The byte length shrinks but stays at least the offset. |
| RustString.AsciiByteLen | src/main.rs:119 | A string's byte length equals its char count exactly when it is ASCII. |
| RustString.AsciiCharIndex | src/main.rs:84-87 | On ASCII text, every byte offset up to the length is the boundary of the char with that index, and no larger offset is a boundary. |
| ByteCaret.InsertSlot | src/main.rs:83-90 | On one field with a byte caret, insert panics exactly when the caret is off a char boundary. Otherwise c is inserted before the char whose byte offset is the caret, the caret advances by one, and the byte length grows by c's UTF-8 width. The new caret is within the new byte length. |
| ByteCaret.InsertChar | src/main.rs:83-90 | Insert panics exactly when the focused caret is off a char boundary. Otherwise only the focused field changes: `InsertSlot` is applied to it, so c lands before the char at the caret's byte offset and the caret advances by one. Byte-caret validity is kept. It never quits. |
| ByteCaret.BackspaceSlot | src/main.rs:102-111 | On one field, caret 0 changes nothing. Otherwise backspace panics exactly when the byte before the caret is not a char boundary inside the text, and else the char starting at that byte is removed and the caret drops by one. With the caret within the byte length, it panics exactly off a char boundary, and the result keeps the caret within the byte length. |
| ByteCaret.Backspace | src/main.rs:102-111 | Caret 0 changes nothing. It panics exactly when `BackspaceSlot` does on the focused field; otherwise that field becomes `BackspaceSlot`'s result and nothing else changes. Byte-caret validity is kept. It never quits. |
| ByteCaret.MoveLeft | src/main.rs:113-116 | The focused field undergoes the char model's `Text.MoveLeft`: the text is unchanged and the caret saturates at 0. Only the focused field changes. Byte-caret validity is kept. |
| ByteCaret.MoveRightSlot | src/main.rs:118-122 | The text is unchanged. The caret advances by one below the byte length and is set to the byte length at or past it. |
| ByteCaret.MoveRight | src/main.rs:118-122 | The focused field undergoes `MoveRightSlot`. Nothing else changes. Byte-caret validity is kept. |
| ByteCaret.Apply | src/main.rs:138-154 | Only Quit stops. Only insert and delete can panic. Byte-caret validity is kept. Only FocusNext moves the focus, only the two mode commands change the mode, and unfocused fields never change. |
| ByteCaret.Step | src/main.rs:137-154 | A step quits exactly on 'q' in Normal mode. A panic needs a press of a char or Backspace in Editing mode. The mode changes exactly on 'e' in Normal mode or a press of Esc in Editing mode. The focus changes exactly on a press of Tab in Editing mode. Normal mode changes no buffer. Unfocused fields never change. Non-press events in Editing mode change nothing. Byte-caret validity is kept. |
| ByteCaret.EditingKeys | src/main.rs:144-152 | In Editing mode each pressed key code runs its byte-caret operation: Esc, Tab, a char, Backspace, Left, Right, or nothing. |
| ByteCaret.Run | src/main.rs:133-157 | A panicking run contains a press of a char or of Backspace. A run that continues keeps every byte caret within the byte length of its text. |
| ByteCaret.ReachableValid | src/main.rs:48-157 | The start state has every byte caret within its text, and so does every state a run from it reaches. |
| ByteCaret.InsertAgreesOnAscii | src/main.rs:83-90 | On ASCII text with a valid caret, the byte-caret insert of an ASCII char computes `Text.Insert` and keeps the text ASCII. |
| ByteCaret.RemoveAgreesOnAscii | src/main.rs:102-111 | On ASCII text with a valid caret, the byte-caret backspace computes `Text.Backspace` and keeps the text ASCII. |
| ByteCaret.MoveRightAgreesOnAscii | src/main.rs:118-122 | On ASCII text, capping at the byte length is capping at the char count. |
| ByteCaret.ApplyAgreesOnAscii | src/main.rs:138-154 | On ASCII text, every command gives the same outcome in both models and never panics. |
| ByteCaret.RunAgreesOnAscii | src/main.rs:133-157 | From any valid ASCII state, a stream that types only ASCII gives the same outcome in both models. |
| ByteCaret.TwoByteCharPanics | src/main.rs:83-90 | Typing U+00E9 twice from the start state panics as written. The char-indexed model yields that character twice with the caret at 2. |

## Left out

- `main`, terminal setup and restore, and `color_eyre` (src/main.rs:11-17) are process and terminal plumbing.
- `terminal.draw` and `event::read` (src/main.rs:135-137) are blocking I/O. The event stream is a parameter instead, and errors from reading or drawing are not modelled.
- `block` and `draw` (src/main.rs:159-223) are rendering only: layout percentages, colours and the `u16` caret coordinates.
- The commented-out `insert_char` (src/main.rs:91-100) is dead code.
- Key codes other than Char, Backspace, Left, Right, Tab and Esc are one `OtherKey`. Key modifiers are dropped, since the code never reads them.
- Non-key events (resize, mouse, paste, focus) are one `NonKey`, which the loop ignores.
- UTF-8 is modelled by char widths only, not by the encoded bytes.
- `usize` arithmetic is unbounded here. `cursor + 1` could only overflow with a caret at `usize::MAX`, and a caret never exceeds the byte length of its string (`ByteCaret.ReachableValid`).
- Dispatch.Run, Dispatch.EventLoop: both cover finite event streams. The program loops until 'q' arrives.
- Text.Insert, Text.Backspace, Text.MoveRight, Editor.InsertChar, Editor.Backspace, Editor.MoveRight, Dispatch.Step, Dispatch.Run: these count the caret in characters, so they match src/main.rs only on ASCII text, where `ByteCaret.RunAgreesOnAscii` proves the match. Beyond ASCII the model of the code is `ByteCaret`, which can panic (see "## Findings").

## Findings

| source | as written | input that shows it | evidently intended | confidence | as-written member | corrected member |
|---|---|---|---|---|---|---|
| src/main.rs:83-90 | The caret is passed to `String::insert` as a byte offset but advances by 1 per char, whatever the char's UTF-8 width. `move_right` (line 121) caps it at the byte length. | In Editing mode on the empty token field, press U+00E9 twice. The second insert is at byte 1, inside the first character, and `String::insert` panics. | The caret counts characters, so any character can be typed and deleted again. | not executed; high | ByteCaret.TwoByteCharPanics | Text.Insert |

=== FILE: byte_caret.dfy ===
/** The editor exactly as src/main.rs writes it: each caret is a BYTE offset
    into a Rust `String`, moved by one per typed char and capped at the byte
    length. The key dispatch is shared with the char-indexed model; only the
    four edit operations differ. On ASCII text the two models agree step for
    step; beyond ASCII this one can panic. */
module ByteCaret {
  import Text
  import Editor
  import Dispatch
  import RustString

  /** A step either continues, quits, or panics inside `String`. */
  datatype Outcome = Continue(app: Editor.App) | Stop | Panic

  /** The caret invariant the code keeps: `move_right` caps a caret at
      `len()`, the byte length, so no caret passes it. */
  predicate SlotValid(s: Text.Slot) {
    s.cursor <= RustString.ByteLen(s.text)
  }

  /** Every field's byte caret lies within its text. */
  predicate Valid(app: Editor.App) {
    && SlotValid(app.jwt)
    && SlotValid(app.header)
    && SlotValid(app.payload)
    && SlotValid(app.signingKey)
  }

  /** `insert_char` on one field: `String::insert` at the byte caret, then
      the caret advances by one whatever the width of `c`. `None` is a panic. */
  function InsertSlot(s: Text.Slot, c: char): (r: RustString.Option<Text.Slot>)
    ensures r.None? <==> !RustString.IsCharBoundary(s.text, s.cursor)
    ensures r.Some? ==> r.value.cursor == s.cursor + 1
    ensures r.Some? ==> RustString.ByteLen(r.value.text) == RustString.ByteLen(s.text) + RustString.Utf8Width(c)
    ensures r.Some? ==> exists i :: 0 <= i <= |s.text| && RustString.ByteLen(s.text[..i]) == s.cursor &&
                                    r.value.text == s.text[..i] + [c] + s.text[i..]
    ensures r.Some? ==> SlotValid(r.value)
  {
    match RustString.Insert(s.text, s.cursor, c)
    case None => RustString.None
    case Some(t) => RustString.Some(Text.Slot(t, s.cursor + 1))
  }

  /** `backspace` on one field: with the caret past 0, `String::remove` at
      the byte before it, then the caret drops by one. `None` is a panic. */
  function BackspaceSlot(s: Text.Slot): (r: RustString.Option<Text.Slot>)
    ensures s.cursor == 0 ==> r == RustString.Some(s)
    ensures r.None? <==> s.cursor > 0 &&
                         !(RustString.IsCharBoundary(s.text, s.cursor - 1) && s.cursor - 1 < RustString.ByteLen(s.text))
    ensures s.cursor > 0 && r.Some? ==> r.value.cursor + 1 == s.cursor
    ensures s.cursor > 0 && r.Some? ==>
              exists i :: 0 <= i < |s.text| && RustString.ByteLen(s.text[..i]) == s.cursor - 1 &&
                          r.value.text == s.text[..i] + s.text[i + 1..]
    ensures SlotValid(s) ==> (r.None? <==> s.cursor > 0 && !RustString.IsCharBoundary(s.text, s.cursor - 1))
    ensures SlotValid(s) && r.Some? ==> SlotValid(r.value)
  {
    if s.cursor > 0 then
      match RustString.Remove(s.text, s.cursor - 1)
      case None => RustString.None
      case Some(t) => RustString.Some(Text.Slot(t, s.cursor - 1))
    else
      RustString.Some(s)
  }

  /** `move_right` on one field: `min(cursor + 1, len())`, where `len()`
      counts bytes. */
  function MoveRightSlot(s: Text.Slot): (r: Text.Slot)
    ensures r.text == s.text
    ensures r.cursor <= RustString.ByteLen(s.text)
    ensures s.cursor < RustString.ByteLen(s.text) ==> r.cursor == s.cursor + 1
    ensures s.cursor >= RustString.ByteLen(s.text) ==> r.cursor == RustString.ByteLen(s.text)
  {
    var len := RustString.ByteLen(s.text);
    Text.Slot(s.text, if s.cursor + 1 < len then s.cursor + 1 else len)
  }

  /** Writes an edited focused field back, or panics. */
  function Store(app: Editor.App, r: RustString.Option<Text.Slot>): Outcome {
    match r
    case None => Panic
    case Some(s) => Continue(Editor.Put(app, app.focus, s))
  }

  function InsertChar(app: Editor.App, c: char): (r: Outcome)
    ensures r.Panic? <==> !RustString.IsCharBoundary(Editor.Active(app).text, Editor.Active(app).cursor)
    ensures r.Continue? ==> Editor.OnlyActiveChanged(app, r.app)
    ensures r.Continue? ==> Editor.Active(r.app).cursor == Editor.Active(app).cursor + 1
    ensures r.Continue? ==> Editor.Active(r.app) == InsertSlot(Editor.Active(app), c).value
    ensures r.Continue? ==>
              var s := Editor.Active(app);
              exists i :: 0 <= i <= |s.text| && RustString.ByteLen(s.text[..i]) == s.cursor &&
                          Editor.Active(r.app).text == s.text[..i] + [c] + s.text[i..]
    ensures Valid(app) && r.Continue? ==> Valid(r.app)
    ensures !r.Stop?
  {
    Store(app, InsertSlot(Editor.Active(app), c))
  }

  function Backspace(app: Editor.App): (r: Outcome)
    ensures Editor.Active(app).cursor == 0 ==> r == Continue(app)
    ensures r.Panic? <==> BackspaceSlot(Editor.Active(app)).None?
    ensures r.Continue? ==> Editor.OnlyActiveChanged(app, r.app)
    ensures r.Continue? ==> Editor.Active(r.app) == BackspaceSlot(Editor.Active(app)).value
    ensures Valid(app) && r.Continue? ==> Valid(r.app)
    ensures !r.Stop?
  {
    Store(app, BackspaceSlot(Editor.Active(app)))
  }

  /** `saturating_sub(1)` on the focused caret, the same as the char model. */
  function MoveLeft(app: Editor.App): (r: Editor.App)
    ensures Editor.OnlyActiveChanged(app, r)
    ensures Editor.Active(r).text == Editor.Active(app).text
    ensures Editor.Active(r).cursor <= Editor.Active(app).cursor
    ensures Editor.Active(r) == Text.MoveLeft(Editor.Active(app))
    ensures Valid(app) ==> Valid(r)
  {
    Editor.Put(app, app.focus, Text.MoveLeft(Editor.Active(app)))
  }

  function MoveRight(app: Editor.App): (r: Editor.App)
    ensures Editor.OnlyActiveChanged(app, r)
    ensures Editor.Active(r) == MoveRightSlot(Editor.Active(app))
    ensures Valid(app) ==> Valid(r)
  {
    Editor.Put(app, app.focus, MoveRightSlot(Editor.Active(app)))
  }

  function Apply(app: Editor.App, cmd: Dispatch.Command): (r: Outcome)
    ensures r.Stop? <==> cmd == Dispatch.Quit
    ensures r.Panic? ==> cmd.Insert? || cmd == Dispatch.DeleteBack
    ensures Valid(app) && r.Continue? ==> Valid(r.app)
    ensures r.Continue? && cmd != Dispatch.FocusNext ==> r.app.focus == app.focus
    ensures r.Continue? && cmd !in {Dispatch.EnterEditing, Dispatch.EnterNormal} ==> r.app.mode == app.mode
    ensures r.Continue? ==> forall f :: f != app.focus ==> Editor.Get(r.app, f) == Editor.Get(app, f)
  {
    match cmd
    case Quit => Stop
    case EnterEditing => Continue(app.(mode := Editor.Editing))
    case EnterNormal => Continue(app.(mode := Editor.Normal))
    case FocusNext => Continue(Editor.NextFocus(app))
    case Insert(c) => InsertChar(app, c)
    case DeleteBack => Backspace(app)
    case CursorLeft => Continue(MoveLeft(app))
    case CursorRight => Continue(MoveRight(app))
    case Ignore => Continue(app)
  }

  function Step(app: Editor.App, ev: Dispatch.Event): (r: Outcome)
    ensures r.Stop? <==> app.mode == Editor.Normal && ev.Key? && ev.key.code == Dispatch.Char('q')
    ensures r.Panic? ==> app.mode == Editor.Editing && IsEditPress(ev)
    ensures Valid(app) && r.Continue? ==> Valid(r.app)
    ensures r.Continue? && r.app.mode != app.mode <==>
              || (app.mode == Editor.Normal && ev.Key? && ev.key.code == Dispatch.Char('e'))
              || (app.mode == Editor.Editing && ev.Key? && ev.key.kind == Dispatch.Press && ev.key.code == Dispatch.Esc)
    ensures r.Continue? && r.app.focus != app.focus <==>
              app.mode == Editor.Editing && ev.Key? && ev.key.kind == Dispatch.Press && ev.key.code == Dispatch.Tab
    ensures app.mode == Editor.Normal && !r.Stop? ==> r == Continue(app) || r == Continue(app.(mode := Editor.Editing))
    ensures r.Continue? ==> forall f :: f != app.focus ==> Editor.Get(r.app, f) == Editor.Get(app, f)
    ensures app.mode == Editor.Editing && !(ev.Key? && ev.key.kind == Dispatch.Press) ==> r == Continue(app)
  {
    Apply(app, Dispatch.Decode(app.mode, ev))
  }

  /** The editing-mode key table of the code as written, stated on the
      byte-caret operations. */
  lemma EditingKeys(app: Editor.App, k: Dispatch.KeyCode)
    requires app.mode == Editor.Editing
    ensures var r := Step(app, Dispatch.Pressed(k));
            match k
            case Esc => r == Continue(app.(mode := Editor.Normal))
            case Tab => r == Continue(Editor.NextFocus(app))
            case Char(c) => r == InsertChar(app, c)
            case Backspace => r == Backspace(app)
            case Left => r == Continue(MoveLeft(app))
            case Right => r == Continue(MoveRight(app))
            case OtherKey => r == Continue(app)
  {
  }

  /** A key press that reaches `String::insert` or `String::remove`. */
  predicate IsEditPress(ev: Dispatch.Event) {
    ev.Key? && ev.key.kind == Dispatch.Press && (ev.key.code.Char? || ev.key.code == Dispatch.Backspace)
  }

  /** The loop over a finite stream of events; only a typed character or a
      backspace can make it panic. */
  function Run(app: Editor.App, evs: seq<Dispatch.Event>): (r: Outcome)
    ensures r.Panic? ==> exists i :: 0 <= i < |evs| && IsEditPress(evs[i])
    ensures Valid(app) && r.Continue? ==> Valid(r.app)
    decreases |evs|
  {
    if |evs| == 0 then Continue(app)
    else
      match Step(app, evs[0])
      case Continue(next) => Run(next, evs[1..])
      case other => other
  }

  /** The start state is valid, so every state the program reaches keeps
      each byte caret within its text; in particular `backspace` can only
      panic off a char boundary, never past the end. */
  lemma ReachableValid(evs: seq<Dispatch.Event>)
    ensures Valid(Editor.New())
    ensures Run(Editor.New(), evs).Continue? ==> Valid(Run(Editor.New(), evs).app)
  {
  }

  /** The char-indexed outcome seen as an outcome of this model. */
  function Lift(o: Dispatch.Outcome): Outcome {
    match o
    case Continue(a) => Continue(a)
    case Stop => Stop
  }

  predicate AsciiApp(app: Editor.App) {
    && RustString.IsAscii(app.jwt.text)
    && RustString.IsAscii(app.header.text)
    && RustString.IsAscii(app.payload.text)
    && RustString.IsAscii(app.signingKey.text)
  }

  /** Every character the event would type is ASCII. */
  predicate AsciiEvent(ev: Dispatch.Event) {
    ev.Key? && ev.key.code.Char? ==> (ev.key.code.c as int) < 0x80
  }

  lemma AsciiPut(app: Editor.App, s: Text.Slot)
    requires AsciiApp(app) && RustString.IsAscii(s.text)
    ensures AsciiApp(Editor.Put(app, app.focus, s))
  {
  }

  /** On ASCII text `insert_char` computes the char-indexed insertion and
      keeps the text ASCII. */
  lemma InsertAgreesOnAscii(s: Text.Slot, c: char)
    requires Text.Valid(s) && RustString.IsAscii(s.text) && (c as int) < 0x80
    ensures InsertSlot(s, c) == RustString.Some(Text.Insert(s, c))
    ensures RustString.IsAscii(Text.Insert(s, c).text)
  {
    RustString.AsciiCharIndex(s.text, s.cursor);
    var t := Text.Insert(s, c);
    forall i | 0 <= i < |t.text|
      ensures (t.text[i] as int) < 0x80
    {
      if i < s.cursor {
        assert t.text[i] == t.text[..s.cursor][i] == s.text[i];
      } else if i > s.cursor {
        assert t.text[i] == t.text[t.cursor..][i - t.cursor] == s.text[i - 1];
      }
    }
  }

  /** On ASCII text `backspace` computes the char-indexed backspace and
      keeps the text ASCII. */
  lemma RemoveAgreesOnAscii(s: Text.Slot)
    requires Text.Valid(s) && RustString.IsAscii(s.text)
    ensures BackspaceSlot(s) == RustString.Some(Text.Backspace(s))
    ensures RustString.IsAscii(Text.Backspace(s).text)
  {
    if s.cursor > 0 {
      RustString.AsciiCharIndex(s.text, s.cursor - 1);
      var t := Text.Backspace(s);
      assert t.text == s.text[..s.cursor - 1] + s.text[s.cursor..];
      forall i | 0 <= i < |t.text|
        ensures (t.text[i] as int) < 0x80
      {
        if i < s.cursor - 1 {
          assert t.text[i] == s.text[i];
        } else {
          assert t.text[i] == s.text[i + 1];
        }
      }
    }
  }

  /** On ASCII text `move_right` caps at the char count. */
  lemma MoveRightAgreesOnAscii(s: Text.Slot)
    requires RustString.IsAscii(s.text)
    ensures MoveRightSlot(s) == Text.MoveRight(s)
  {
    RustString.AsciiByteLen(s.text);
  }

  /** On ASCII text every edit computes what the char-indexed edit computes
      and never panics. */
  lemma ApplyAgreesOnAscii(app: Editor.App, cmd: Dispatch.Command)
    requires Editor.Valid(app) && AsciiApp(app)
    requires cmd.Insert? ==> (cmd.c as int) < 0x80
    ensures Apply(app, cmd) == Lift(Dispatch.Apply(app, cmd))
    ensures Dispatch.Apply(app, cmd).Continue? ==> AsciiApp(Dispatch.Apply(app, cmd).app)
  {
    var s := Editor.Active(app);
    assert Text.Valid(s) && RustString.IsAscii(s.text);
    match cmd
    case Insert(c) =>
      InsertAgreesOnAscii(s, c);
      AsciiPut(app, Text.Insert(s, c));
    case DeleteBack =>
      RemoveAgreesOnAscii(s);
      AsciiPut(app, Text.Backspace(s));
    case CursorLeft =>
      AsciiPut(app, Text.MoveLeft(s));
    case CursorRight =>
      MoveRightAgreesOnAscii(s);
      AsciiPut(app, Text.MoveRight(s));
    case _ =>
  }

  /** Over any stream of events that types only ASCII, the program as
      written and the char-indexed model end in the same outcome. */
  lemma {:induction false} RunAgreesOnAscii(app: Editor.App, evs: seq<Dispatch.Event>)
    requires Editor.Valid(app) && AsciiApp(app)
    requires forall i :: 0 <= i < |evs| ==> AsciiEvent(evs[i])
    ensures Run(app, evs) == Lift(Dispatch.Run(app, evs))
    decreases |evs|
  {
    if |evs| > 0 {
      var cmd := Dispatch.Decode(app.mode, evs[0]);
      assert AsciiEvent(evs[0]);
      ApplyAgreesOnAscii(app, cmd);
      match Dispatch.Step(app, evs[0])
      case Stop =>
      case Continue(next) =>
        RunAgreesOnAscii(next, evs[1..]);
    }
  }

  /** U+00E9, LATIN SMALL LETTER E WITH ACUTE: two bytes in UTF-8. */
  const EAcute: char := 0xE9 as char

  /** Typing a two-byte character twice panics: the first insert leaves the
      caret at byte 1, inside that character, where `String::insert` refuses
      to insert. The char-indexed model types both. */
  lemma TwoByteCharPanics()
    ensures Run(Editor.New(), [Dispatch.Pressed(Dispatch.Char(EAcute)), Dispatch.Pressed(Dispatch.Char(EAcute))]) == Panic
    ensures var r := Dispatch.Run(Editor.New(), [Dispatch.Pressed(Dispatch.Char(EAcute)), Dispatch.Pressed(Dispatch.Char(EAcute))]);
            r.Continue? && r.app.jwt == Text.Slot([EAcute, EAcute], 2)
  {
    var e := Dispatch.Pressed(Dispatch.Char(EAcute));
    var a0 := Editor.New();
    var a1 := a0.(jwt := Text.Slot([EAcute], 1));
    assert RustString.CharIndex([], 0) == RustString.Some(0);
    assert [] + [EAcute] + [] == [EAcute];
    assert Step(a0, e) == Continue(a1);
    assert RustString.CharIndex([EAcute], 1) == RustString.None;
    assert Step(a1, e) == Panic;
    assert [e, e][1..] == [e];
    assert Run(a1, [e]) == Panic;
    var b2 := Editor.InsertChar(a1, EAcute);
    assert b2.jwt == Text.Slot([EAcute, EAcute], 2);
    assert Dispatch.Run(a1, [e]) == Dispatch.Continue(b2) by {
      assert Dispatch.Run(b2, []) == Dispatch.Continue(b2);
    }
  }
}

=== FILE: dispatch.dfy ===
/** The event loop of jwtui: how one keyboard event, read in the current
    input mode, becomes a state change or the end of the program, and the
    loop that folds those steps over a stream of events. Reading events and
    redrawing the screen are left to the caller: the stream is a parameter. */
module Dispatch {
  import Text
  import Editor

  /** The key codes the loop tells apart; every other code is `OtherKey`. */
  datatype KeyCode = Char(c: char) | Backspace | Left | Right | Tab | Esc | OtherKey

  datatype KeyEventKind = Press | Repeat | Release

  datatype KeyEvent = KeyEvent(code: KeyCode, kind: KeyEventKind)

  /** A terminal event: a key, or anything else (resize, mouse, paste, ...). */
  datatype Event = Key(key: KeyEvent) | NonKey

  /** What one event asks of the editor. */
  datatype Command =
    | Quit
    | EnterEditing
    | EnterNormal
    | FocusNext
    | Insert(c: char)
    | DeleteBack
    | CursorLeft
    | CursorRight
    | Ignore

  /** The dispatch table of the loop. In normal mode only the key code
      matters (a release of 'q' quits as well); in editing mode only key
      presses are acted on. */
  function Decode(mode: Editor.InputMode, ev: Event): (cmd: Command)
    ensures cmd == Quit <==> mode == Editor.Normal && ev.Key? && ev.key.code == Char('q')
    ensures cmd == EnterEditing <==> mode == Editor.Normal && ev.Key? && ev.key.code == Char('e')
    ensures mode == Editor.Normal ==> cmd in {Quit, EnterEditing, Ignore}
    ensures mode == Editor.Editing && !(ev.Key? && ev.key.kind == Press) ==> cmd == Ignore
    ensures mode == Editor.Editing && ev.Key? && ev.key.kind == Press ==>
              match ev.key.code
              case Esc => cmd == EnterNormal
              case Tab => cmd == FocusNext
              case Char(c) => cmd == Insert(c)
              case Backspace => cmd == DeleteBack
              case Left => cmd == CursorLeft
              case Right => cmd == CursorRight
              case OtherKey => cmd == Ignore
  {
    if !ev.Key? then Ignore
    else
      match mode
      case Normal =>
        (match ev.key.code
         case Char('q') => Quit
         case Char('e') => EnterEditing
         case _ => Ignore)
      case Editing =>
        if ev.key.kind != Press then Ignore
        else
          match ev.key.code
          case Esc => EnterNormal
          case Tab => FocusNext
          case Char(c) => Insert(c)
          case Backspace => DeleteBack
          case Left => CursorLeft
          case Right => CursorRight
          case OtherKey => Ignore
  }

  /** The state after one step, or `Stop` once the quit key was pressed. */
  datatype Outcome = Continue(app: Editor.App) | Stop

  /** Carries out a command on the editor. */
  function Apply(app: Editor.App, cmd: Command): (r: Outcome)
    requires Editor.Valid(app)
    ensures r.Stop? <==> cmd == Quit
    ensures r.Continue? ==> Editor.Valid(r.app)
    ensures r.Continue? && cmd != FocusNext ==> r.app.focus == app.focus
    ensures r.Continue? ==> forall f :: f != app.focus ==> Editor.Get(r.app, f) == Editor.Get(app, f)
  {
    match cmd
    case Quit => Stop
    case EnterEditing => Continue(app.(mode := Editor.Editing))
    case EnterNormal => Continue(app.(mode := Editor.Normal))
    case FocusNext => Continue(Editor.NextFocus(app))
    case Insert(c) => Continue(Editor.InsertChar(app, c))
    case DeleteBack => Continue(Editor.Backspace(app))
    case CursorLeft => Continue(Editor.MoveLeft(app))
    case CursorRight => Continue(Editor.MoveRight(app))
    case Ignore => Continue(app)
  }

  /** One turn of the loop: the event is read in the current mode. */
  function Step(app: Editor.App, ev: Event): (r: Outcome)
    requires Editor.Valid(app)
    ensures r.Continue? ==> Editor.Valid(r.app)
    ensures r.Stop? <==> app.mode == Editor.Normal && ev.Key? && ev.key.code == Char('q')
    ensures r.Continue? && r.app.mode != app.mode <==>
              || (app.mode == Editor.Normal && ev.Key? && ev.key.code == Char('e'))
              || (app.mode == Editor.Editing && ev.Key? && ev.key.kind == Press && ev.key.code == Esc)
    ensures r.Continue? && r.app.focus != app.focus <==>
              app.mode == Editor.Editing && ev.Key? && ev.key.kind == Press && ev.key.code == Tab
    ensures r.Continue? && app.mode == Editor.Normal ==> forall f :: Editor.Get(r.app, f) == Editor.Get(app, f)
    ensures r.Continue? ==> forall f :: f != app.focus ==> Editor.Get(r.app, f) == Editor.Get(app, f)
    ensures app.mode == Editor.Editing && !(ev.Key? && ev.key.kind == Press) ==> r == Continue(app)
  {
    Apply(app, Decode(app.mode, ev))
  }

  /** The editing-mode key table, stated on the editor operations. */
  lemma EditingKeys(app: Editor.App, k: KeyCode)
    requires Editor.Valid(app) && app.mode == Editor.Editing
    ensures var r := Step(app, Key(KeyEvent(k, Press)));
            match k
            case Esc => r == Continue(app.(mode := Editor.Normal))
            case Tab => r == Continue(Editor.NextFocus(app))
            case Char(c) => r == Continue(Editor.InsertChar(app, c))
            case Backspace => r == Continue(Editor.Backspace(app))
            case Left => r == Continue(Editor.MoveLeft(app))
            case Right => r == Continue(Editor.MoveRight(app))
            case OtherKey => r == Continue(app)
  {
  }

  /** The loop folded over a finite stream of events: `Stop` as soon as one
      event quits (later events are never read), otherwise the final state. */
  function Run(app: Editor.App, evs: seq<Event>): (r: Outcome)
    requires Editor.Valid(app)
    ensures r.Continue? ==> Editor.Valid(r.app)
    decreases |evs|
  {
    if |evs| == 0 then Continue(app)
    else
      match Step(app, evs[0])
      case Stop => Stop
      case Continue(next) => Run(next, evs[1..])
  }

  /** Running two streams back to back is running their concatenation. */
  lemma {:induction false} RunAppend(app: Editor.App, a: seq<Event>, b: seq<Event>)
    requires Editor.Valid(app)
    ensures Run(app, a + b) == match Run(app, a)
                               case Stop => Stop
                               case Continue(mid) => Run(mid, b)
    decreases |a|
  {
    if |a| > 0 {
      assert (a + b)[0] == a[0];
      assert (a + b)[1..] == a[1..] + b;
      match Step(app, a[0])
      case Stop =>
      case Continue(next) => RunAppend(next, a[1..], b);
    } else {
      assert a + b == b;
    }
  }

  /** Every state the program can reach from its start keeps each caret
      within its text. */
  lemma ReachableValid(evs: seq<Event>)
    ensures Run(Editor.New(), evs).Continue? ==> Editor.Valid(Run(Editor.New(), evs).app)
  {
  }

  /** An event that can change the state in normal mode. */
  predicate IsCommandKey(ev: Event) {
    ev.Key? && ev.key.code in {Char('q'), Char('e')}
  }

  /** In normal mode every key other than 'q' and 'e' is ignored, so such a
      stream leaves the state exactly as it was. */
  lemma {:induction false} NormalIgnoresOtherKeys(app: Editor.App, evs: seq<Event>)
    requires Editor.Valid(app) && app.mode == Editor.Normal
    requires forall i :: 0 <= i < |evs| ==> !IsCommandKey(evs[i])
    ensures Run(app, evs) == Continue(app)
    decreases |evs|
  {
    if |evs| > 0 {
      assert !IsCommandKey(evs[0]);
      assert Step(app, evs[0]) == Continue(app);
      NormalIgnoresOtherKeys(app, evs[1..]);
    }
  }

  /** In normal mode 'q' ends the loop whatever follows it. */
  lemma QuitStops(app: Editor.App, kind: KeyEventKind, rest: seq<Event>)
    requires Editor.Valid(app) && app.mode == Editor.Normal
    ensures Run(app, [Key(KeyEvent(Char('q'), kind))] + rest) == Stop
  {
  }

  function Pressed(k: KeyCode): Event {
    Key(KeyEvent(k, Press))
  }

  /** Four presses of Tab in editing mode visit Header, Payload, SigningKey
      and return to the token field with every buffer untouched. */
  lemma FourTabs(app: Editor.App)
    requires Editor.Valid(app) && app.mode == Editor.Editing && app.focus == Editor.Jwt
    ensures Run(app, [Pressed(Tab)]).app.focus == Editor.Header
    ensures Run(app, [Pressed(Tab), Pressed(Tab)]).app.focus == Editor.Payload
    ensures Run(app, [Pressed(Tab), Pressed(Tab), Pressed(Tab)]).app.focus == Editor.SigningKey
    ensures Run(app, [Pressed(Tab), Pressed(Tab), Pressed(Tab), Pressed(Tab)]) == Continue(app)
  {
  }

  /** One turn of the fold, when the first event does not quit. */
  lemma RunStep(app: Editor.App, ev: Event, rest: seq<Event>, next: Editor.App)
    requires Editor.Valid(app) && Step(app, ev) == Continue(next)
    ensures Run(app, [ev] + rest) == Run(next, rest)
  {
  }

  /** The token field after each of the six key presses of `ScenarioAbc`. */
  lemma ScenarioAbcSlots()
    ensures Text.Insert(Text.Empty, 'a') == Text.Slot("a", 1)
    ensures Text.Insert(Text.Slot("a", 1), 'b') == Text.Slot("ab", 2)
    ensures Text.Insert(Text.Slot("ab", 2), 'c') == Text.Slot("abc", 3)
    ensures Text.MoveLeft(Text.Slot("abc", 3)) == Text.Slot("abc", 2)
    ensures Text.MoveLeft(Text.Slot("abc", 2)) == Text.Slot("abc", 1)
    ensures Text.Backspace(Text.Slot("abc", 1)) == Text.Slot("bc", 0)
  {
  }

  /** A press of a char, Left or Backspace while the token field has the
      focus in editing mode edits that field and nothing else. */
  lemma JwtEdit(app: Editor.App, k: KeyCode, s: Text.Slot)
    requires Editor.Valid(app) && app.mode == Editor.Editing && app.focus == Editor.Jwt
    requires k.Char? || k == Left || k == Backspace
    requires k.Char? ==> s == Text.Insert(app.jwt, k.c)
    requires k == Left ==> s == Text.MoveLeft(app.jwt)
    requires k == Backspace ==> s == Text.Backspace(app.jwt)
    ensures Step(app, Pressed(k)) == Continue(app.(jwt := s))
  {
  }

  /** Typing "abc" into the fresh editor, two steps left and a backspace
      delete the 'a': the caret had come to rest after it. */
  lemma ScenarioAbc()
    ensures var r := Run(Editor.New(), [Pressed(Char('a')), Pressed(Char('b')), Pressed(Char('c')),
                                       Pressed(Left), Pressed(Left), Pressed(Backspace)]);
            && r.Continue?
            && r.app.jwt == Text.Slot("bc", 0)
            && r.app.focus == Editor.Jwt
  {
    ScenarioAbcSlots();
    var a0 := Editor.New();
    var a1 := a0.(jwt := Text.Slot("a", 1));
    var a2 := a0.(jwt := Text.Slot("ab", 2));
    var a3 := a0.(jwt := Text.Slot("abc", 3));
    var a4 := a0.(jwt := Text.Slot("abc", 2));
    var a5 := a0.(jwt := Text.Slot("abc", 1));
    var a6 := a0.(jwt := Text.Slot("bc", 0));
    var evs := [Pressed(Char('a')), Pressed(Char('b')), Pressed(Char('c')),
                Pressed(Left), Pressed(Left), Pressed(Backspace)];
    var e1, e2, e3 := Pressed(Char('a')), Pressed(Char('b')), Pressed(Char('c'));
    var e4, e6 := Pressed(Left), Pressed(Backspace);
    assert evs == [e1] + ([e2] + ([e3] + ([e4] + ([e4] + ([e6] + [])))));
    assert Run(a6, []) == Continue(a6);
    assert Run(a5, [e6] + []) == Continue(a6) by {
      JwtEdit(a5, Backspace, a6.jwt);
      RunStep(a5, e6, [], a6);
    }
    assert Run(a4, [e4] + ([e6] + [])) == Continue(a6) by {
      JwtEdit(a4, Left, a5.jwt);
      RunStep(a4, e4, [e6] + [], a5);
    }
    assert Run(a3, [e4] + ([e4] + ([e6] + []))) == Continue(a6) by {
      JwtEdit(a3, Left, a4.jwt);
      RunStep(a3, e4, [e4] + ([e6] + []), a4);
    }
    assert Run(a2, [e3] + ([e4] + ([e4] + ([e6] + [])))) == Continue(a6) by {
      JwtEdit(a2, Char('c'), a3.jwt);
      RunStep(a2, e3, [e4] + ([e4] + ([e6] + [])), a3);
    }
    assert Run(a1, [e2] + ([e3] + ([e4] + ([e4] + ([e6] + []))))) == Continue(a6) by {
      JwtEdit(a1, Char('b'), a2.jwt);
      RunStep(a1, e2, [e3] + ([e4] + ([e4] + ([e6] + []))), a2);
    }
    JwtEdit(a0, Char('a'), a1.jwt);
    RunStep(a0, e1, [e2] + ([e3] + ([e4] + ([e4] + ([e6] + [])))), a1);
  }

  /** The loop as the program runs it: events are taken one at a time until
      one of them quits. Returns the last state, whether the loop quit, and
      how many events it read. */
  method EventLoop(app: Editor.App, evs: seq<Event>) returns (last: Editor.App, quit: bool, read: nat)
    requires Editor.Valid(app)
    ensures Editor.Valid(last)
    ensures read <= |evs|
    ensures !quit ==> read == |evs| && Run(app, evs) == Continue(last)
    ensures quit ==> && read > 0
                     && Run(app, evs[..read - 1]) == Continue(last)
                     && Step(last, evs[read - 1]) == Stop
                     && Run(app, evs) == Stop
  {
    last, quit, read := app, false, 0;
    while read < |evs|
      invariant read <= |evs|
      invariant Editor.Valid(last)
      invariant Run(app, evs[..read]) == Continue(last)
    {
      var ev := evs[read];
      match Step(last, ev)
      case Stop =>
        RunAppend(app, evs[..read], [ev]);
        assert evs[..read] + [ev] == evs[..read + 1];
        RunAppend(app, evs[..read + 1], evs[read + 1..]);
        assert evs[..read + 1] + evs[read + 1..] == evs;
        assert Run(app, evs[..read + 1]) == Stop;
        quit, read := true, read + 1;
        return;
      case Continue(next) =>
        RunAppend(app, evs[..read], [ev]);
        assert evs[..read] + [ev] == evs[..read + 1];
        assert Run(last, [ev]) == Continue(next);
        last, read := next, read + 1;
    }
    assert evs[..read] == evs;
  }
}

=== FILE: editor.dfy ===
/** The editor state of jwtui: four text fields, each with its own caret, a
    focus tag choosing the field that edits go to, and the input mode. */
module Editor {
  import Text

  datatype Focus = Jwt | Header | Payload | SigningKey

  datatype InputMode = Normal | Editing

  datatype App = App(
    jwt: Text.Slot,
    header: Text.Slot,
    payload: Text.Slot,
    signingKey: Text.Slot,
    focus: Focus,
    mode: InputMode)

  /** Position of a field in the tab cycle, the reference for `NextField`. */
  function Index(f: Focus): (i: nat)
    ensures i < 4
  {
    match f
    case Jwt => 0
    case Header => 1
    case Payload => 2
    case SigningKey => 3
  }

  /** The field after `f` in the cycle Jwt, Header, Payload, SigningKey. */
  function NextField(f: Focus): (g: Focus)
    ensures Index(g) == (Index(f) + 1) % 4
    ensures g != f
  {
    match f
    case Jwt => Header
    case Header => Payload
    case Payload => SigningKey
    case SigningKey => Jwt
  }

  /** The buffer and caret of field `f`. */
  function Get(app: App, f: Focus): (s: Text.Slot)
    ensures f == Jwt ==> s == app.jwt
    ensures f == Header ==> s == app.header
    ensures f == Payload ==> s == app.payload
    ensures f == SigningKey ==> s == app.signingKey
    ensures Valid(app) ==> Text.Valid(s)
  {
    match f
    case Jwt => app.jwt
    case Header => app.header
    case Payload => app.payload
    case SigningKey => app.signingKey
  }

  /** Replaces the buffer and caret of field `f` and nothing else. */
  function Put(app: App, f: Focus, s: Text.Slot): (r: App)
    ensures Get(r, f) == s
    ensures forall g :: g != f ==> Get(r, g) == Get(app, g)
    ensures r.focus == app.focus && r.mode == app.mode
  {
    match f
    case Jwt => app.(jwt := s)
    case Header => app.(header := s)
    case Payload => app.(payload := s)
    case SigningKey => app.(signingKey := s)
  }

  /** Every field's caret lies within its text. */
  predicate Valid(app: App) {
    && Text.Valid(app.jwt)
    && Text.Valid(app.header)
    && Text.Valid(app.payload)
    && Text.Valid(app.signingKey)
  }

  /** The starting state: four empty fields, every caret at 0, focus on the
      token field, already in editing mode. */
  function New(): (r: App)
    ensures Valid(r)
    ensures forall f :: Get(r, f) == Text.Empty
    ensures r.focus == Jwt && r.mode == Editing
  {
    App(Text.Empty, Text.Empty, Text.Empty, Text.Empty, Jwt, Editing)
  }

  /** The focused buffer and caret: writing it back to the focused field
      gives the same state. */
  function Active(app: App): (s: Text.Slot)
    ensures Valid(app) ==> Text.Valid(s)
    ensures Put(app, app.focus, s) == app
  {
    Get(app, app.focus)
  }

  /** `r` differs from `app` at most in the focused field. */
  predicate OnlyActiveChanged(app: App, r: App) {
    && r.focus == app.focus
    && r.mode == app.mode
    && forall f :: f != app.focus ==> Get(r, f) == Get(app, f)
  }

  function InsertChar(app: App, c: char): (r: App)
    requires Valid(app)
    ensures Valid(r)
    ensures OnlyActiveChanged(app, r)
    ensures Active(r) == Text.Insert(Active(app), c)
  {
    Put(app, app.focus, Text.Insert(Active(app), c))
  }

  function Backspace(app: App): (r: App)
    requires Valid(app)
    ensures Valid(r)
    ensures OnlyActiveChanged(app, r)
    ensures Active(r) == Text.Backspace(Active(app))
  {
    Put(app, app.focus, Text.Backspace(Active(app)))
  }

  function MoveLeft(app: App): (r: App)
    requires Valid(app)
    ensures Valid(r)
    ensures OnlyActiveChanged(app, r)
    ensures Active(r) == Text.MoveLeft(Active(app))
    ensures Active(r).text == Active(app).text
  {
    Put(app, app.focus, Text.MoveLeft(Active(app)))
  }

  function MoveRight(app: App): (r: App)
    requires Valid(app)
    ensures Valid(r)
    ensures OnlyActiveChanged(app, r)
    ensures Active(r) == Text.MoveRight(Active(app))
    ensures Active(r).text == Active(app).text && Active(r).cursor <= |Active(r).text|
  {
    Put(app, app.focus, Text.MoveRight(Active(app)))
  }

  /** Moves the focus to the next field; no buffer or caret is touched. */
  function NextFocus(app: App): (r: App)
    ensures r.focus == NextField(app.focus)
    ensures r.mode == app.mode
    ensures forall f :: Get(r, f) == Get(app, f)
  {
    app.(focus := NextField(app.focus))
  }

  /** `n` presses of the focus key. */
  function Tabs(app: App, n: nat): App {
    if n == 0 then app else NextFocus(Tabs(app, n - 1))
  }

  /** The cycle has length exactly four: three steps visit three new fields
      and the fourth returns to the start. */
  lemma TabCycle(app: App)
    ensures Tabs(app, 4) == app
    ensures Tabs(app, 1).focus != app.focus
    ensures Tabs(app, 2).focus != app.focus && Tabs(app, 2).focus != Tabs(app, 1).focus
    ensures Tabs(app, 3).focus !in {app.focus, Tabs(app, 1).focus, Tabs(app, 2).focus}
  {
    var t1 := NextFocus(app);
    var t2 := NextFocus(t1);
    var t3 := NextFocus(t2);
    assert Tabs(app, 1) == t1 && Tabs(app, 2) == t2 && Tabs(app, 3) == t3;
    assert Tabs(app, 4) == NextFocus(t3);
    assert NextFocus(t3) == app.(focus := NextField(NextField(NextField(NextField(app.focus)))));
  }

  /** Cycling the focus any number of times leaves every buffer and caret as
      it was, so each field's caret persists while the field is unfocused. */
  lemma {:induction false} TabsKeepSlots(app: App, n: nat)
    ensures forall f :: Get(Tabs(app, n), f) == Get(app, f)
    ensures Tabs(app, n).mode == app.mode
    ensures Index(Tabs(app, n).focus) == (Index(app.focus) + n) % 4
  {
    if n > 0 {
      TabsKeepSlots(app, n - 1);
    }
  }
}

=== FILE: rust_string.dfy ===
/** Rust's `String` as the editor uses it: a sequence of chars addressed by
    BYTE offsets, each char taking its UTF-8 width. Only the widths are
    modelled, not the encoded bytes. `String::insert` and `String::remove`
    panic when the offset is not a char boundary; a panic is `None` here. */
module RustString {

  datatype Option<T> = None | Some(value: T)

  /** The number of bytes UTF-8 spends on `c`. */
  function Utf8Width(c: char): (n: nat)
    ensures 1 <= n <= 4
    ensures n == 1 <==> (c as int) < 0x80
  {
    var v := c as int;
    if v < 0x80 then 1
    else if v < 0x800 then 2
    else if v < 0x1_0000 then 3
    else 4
  }

  /** `String::len`: the length in bytes. */
  function ByteLen(s: seq<char>): (n: nat)
    ensures |s| <= n <= 4 * |s|
  {
    if |s| == 0 then 0 else Utf8Width(s[0]) + ByteLen(s[1..])
  }

  predicate IsAscii(s: seq<char>) {
    forall i :: 0 <= i < |s| ==> (s[i] as int) < 0x80
  }

  lemma {:induction false} ByteLenAppend(a: seq<char>, b: seq<char>)
    ensures ByteLen(a + b) == ByteLen(a) + ByteLen(b)
    decreases |a|
  {
    if |a| == 0 {
      assert a + b == b;
    } else {
      assert (a + b)[1..] == a[1..] + b;
      ByteLenAppend(a[1..], b);
    }
  }

  /** A string is ASCII exactly when its byte length is its char count. */
  lemma {:induction false} AsciiByteLen(s: seq<char>)
    ensures IsAscii(s) <==> ByteLen(s) == |s|
    decreases |s|
  {
    if |s| > 0 {
      AsciiByteLen(s[1..]);
      if IsAscii(s) {
        assert IsAscii(s[1..]) by {
          forall i | 0 <= i < |s| - 1
            ensures (s[1..][i] as int) < 0x80
          {
            assert s[1..][i] == s[i + 1];
          }
        }
      }
    }
  }

  /** Byte offset `b` starts a char of `s`, or is the end of `s`. */
  predicate IsCharBoundary(s: seq<char>, b: nat) {
    exists i :: 0 <= i <= |s| && ByteLen(s[..i]) == b
  }

  /** Splitting the first char off a prefix. */
  lemma PrefixLen(s: seq<char>)
    ensures forall i :: 0 < i <= |s| ==> ByteLen(s[..i]) == Utf8Width(s[0]) + ByteLen(s[1..][..i - 1])
  {
    forall i | 0 < i <= |s|
      ensures ByteLen(s[..i]) == Utf8Width(s[0]) + ByteLen(s[1..][..i - 1])
    {
      assert s[..i][1..] == s[1..][..i - 1];
    }
  }

  /** The char index at which byte offset `b` falls, if `b` is a boundary. */
  function CharIndex(s: seq<char>, b: nat): (r: Option<nat>)
    ensures r.Some? ==> r.value <= |s| && ByteLen(s[..r.value]) == b
    ensures r.None? ==> !IsCharBoundary(s, b)
    decreases |s|
  {
    PrefixLen(s);
    if b == 0 then
      assert s[..0] == [];
      Some(0)
    else if |s| == 0 then None
    else if b < Utf8Width(s[0]) then None
    else
      match CharIndex(s[1..], b - Utf8Width(s[0]))
      case None =>
        None
      case Some(j) => Some(j + 1)
  }

  /** A char never spans less than one byte, so a proper prefix is shorter
      in bytes than the whole string. */
  lemma PrefixShorter(s: seq<char>, i: nat)
    requires i < |s|
    ensures ByteLen(s[..i]) < ByteLen(s)
  {
    assert s == s[..i] + s[i..];
    ByteLenAppend(s[..i], s[i..]);
  }

  /** `String::insert(idx, c)`: panics unless `idx` is a char boundary. */
  function Insert(s: seq<char>, idx: nat, c: char): (r: Option<seq<char>>)
    ensures r.Some? <==> IsCharBoundary(s, idx)
    ensures r.Some? ==> ByteLen(r.value) == ByteLen(s) + Utf8Width(c)
    ensures r.Some? ==> idx < ByteLen(r.value)
    ensures r.Some? ==> exists i :: 0 <= i <= |s| && ByteLen(s[..i]) == idx && r.value == s[..i] + [c] + s[i..]
  {
    match CharIndex(s, idx)
    case None => None
    case Some(i) =>
      assert s == s[..i] + s[i..];
      ByteLenAppend(s[..i], [c] + s[i..]);
      ByteLenAppend([c], s[i..]);
      ByteLenAppend(s[..i], s[i..]);
      assert s[..i] + [c] + s[i..] == s[..i] + ([c] + s[i..]);
      Some(s[..i] + [c] + s[i..])
  }

  /** `String::remove(idx)`: panics unless `idx` is a char boundary before
      the end of the string; removes the char starting there. */
  function Remove(s: seq<char>, idx: nat): (r: Option<seq<char>>)
    ensures r.Some? <==> IsCharBoundary(s, idx) && idx < ByteLen(s)
    ensures r.Some? ==> exists i :: 0 <= i < |s| && ByteLen(s[..i]) == idx && r.value == s[..i] + s[i + 1..]
    ensures r.Some? ==> idx <= ByteLen(r.value) < ByteLen(s)
  {
    match CharIndex(s, idx)
    case None => None
    case Some(i) =>
      if i < |s| then
        PrefixShorter(s, i);
        ByteLenAppend(s[..i], s[i + 1..]);
        assert s == s[..i] + ([s[i]] + s[i + 1..]);
        ByteLenAppend(s[..i], [s[i]] + s[i + 1..]);
        ByteLenAppend([s[i]], s[i + 1..]);
        Some(s[..i] + s[i + 1..])
      else
        assert s[..i] == s;
        None
  }

  /** On ASCII text byte offsets and char offsets coincide: every offset up
      to the length is a boundary, at the same char index. */
  lemma AsciiCharIndex(s: seq<char>, b: nat)
    requires IsAscii(s)
    ensures CharIndex(s, b) == if b <= |s| then Some(b) else None
  {
  }
}

=== FILE: text.dfy ===
/** One editable field: its characters and the caret offset into them.
    The caret is counted in characters; the edits are the clamped,
    error-free operations of the editor's `App` (src/main.rs). */
module Text {

  datatype Slot = Slot(text: seq<char>, cursor: nat)

  /** The field every buffer starts as: no text, caret at the start. */
  const Empty: Slot := Slot([], 0)

  /** The caret never points past the end of its text. */
  predicate Valid(s: Slot) {
    s.cursor <= |s.text|
  }

  /** Inserts `c` at the caret and moves the caret past it. */
  function Insert(s: Slot, c: char): (r: Slot)
    requires Valid(s)
    ensures Valid(r)
    ensures |r.text| == |s.text| + 1 && r.cursor == s.cursor + 1
    ensures r.text[..s.cursor] == s.text[..s.cursor]
    ensures r.text[s.cursor] == c
    ensures r.text[r.cursor..] == s.text[s.cursor..]
  {
    Slot(s.text[..s.cursor] + [c] + s.text[s.cursor..], s.cursor + 1)
  }

  /** Deletes the character just before the caret; at the start of the text
      nothing happens. */
  function Backspace(s: Slot): (r: Slot)
    requires Valid(s)
    ensures Valid(r)
    ensures s.cursor == 0 ==> r == s
    ensures s.cursor > 0 ==>
              && |r.text| + 1 == |s.text|
              && r.cursor + 1 == s.cursor
              && r.text[..r.cursor] == s.text[..r.cursor]
              && r.text[r.cursor..] == s.text[s.cursor..]
  {
    if s.cursor > 0 then
      Slot(s.text[..s.cursor - 1] + s.text[s.cursor..], s.cursor - 1)
    else
      s
  }

  /** Moves the caret one character left, saturating at zero. */
  function MoveLeft(s: Slot): (r: Slot)
    ensures r.text == s.text
    ensures Valid(s) ==> Valid(r)
    ensures s.cursor == 0 ==> r == s
    ensures s.cursor > 0 ==> r.cursor + 1 == s.cursor
  {
    Slot(s.text, if s.cursor == 0 then 0 else s.cursor - 1)
  }

  /** Moves the caret one character right, capped at the current length of
      the text (so even a caret past the end lands back inside it). */
  function MoveRight(s: Slot): (r: Slot)
    ensures r.text == s.text
    ensures Valid(r)
    ensures s.cursor < |s.text| ==> r.cursor == s.cursor + 1
    ensures s.cursor >= |s.text| ==> r.cursor == |s.text|
  {
    Slot(s.text, if s.cursor + 1 < |s.text| then s.cursor + 1 else |s.text|)
  }

  /** Typing a character and deleting it straight away restores the field. */
  lemma InsertThenBackspace(s: Slot, c: char)
    requires Valid(s)
    ensures Backspace(Insert(s, c)) == s
  {
  }

  /** Conversely, re-typing the character a backspace removed restores the
      field. */
  lemma BackspaceThenInsert(s: Slot)
    requires Valid(s) && s.cursor > 0
    ensures Insert(Backspace(s), s.text[s.cursor - 1]) == s
  {
  }

  /** Backspace at the start of the text changes nothing, however often it is
      repeated. */
  lemma {:induction false} BackspaceAtStartIsIdle(s: Slot, n: nat)
    requires Valid(s) && s.cursor == 0
    ensures Backspaces(s, n) == s
  {
    if n > 0 {
      BackspaceAtStartIsIdle(s, n - 1);
    }
  }

  /** `n` backspaces in a row. */
  function Backspaces(s: Slot, n: nat): (r: Slot)
    requires Valid(s)
    ensures Valid(r)
    ensures |r.text| <= |s.text|
  {
    if n == 0 then s else Backspace(Backspaces(s, n - 1))
  }

  /** Left then right is the identity wherever left actually moved. */
  lemma MoveLeftThenRight(s: Slot)
    requires Valid(s) && s.cursor > 0
    ensures MoveRight(MoveLeft(s)) == s
  {
  }

  /** Right then left is the identity wherever right actually moved. */
  lemma MoveRightThenLeft(s: Slot)
    requires s.cursor < |s.text|
    ensures MoveLeft(MoveRight(s)) == s
  {
  }

  /** Insert, then left, then backspace does NOT restore the field: it
      removes the character that stood before the original caret and leaves
      `c` in its place, with the caret just before `c`. At the start of the
      text nothing is deleted and the caret rests before `c`. */
  lemma InsertLeftBackspace(s: Slot, c: char)
    requires Valid(s)
    ensures var r := Backspace(MoveLeft(Insert(s, c)));
            if s.cursor == 0 then
              r == Slot([c] + s.text, 0)
            else
              r == Slot(s.text[..s.cursor - 1] + [c] + s.text[s.cursor..], s.cursor - 1)
  {
  }

  /** A concrete field on which that sequence changes the text. */
  lemma InsertLeftBackspaceChangesText()
    ensures Backspace(MoveLeft(Insert(Slot("a", 1), 'b'))) == Slot("b", 0)
    ensures Backspace(MoveLeft(Insert(Slot("a", 1), 'b'))) != Slot("a", 1)
  {
  }
}
